=== FILE: README.md ===
# react-server test bootstrap and context keys, in Dafny

This project models two pieces of the react-server repository.

1. **Server bootstrap in the test harness** (`test/vitestSetup.mjs`). Each `server()` call builds an identity string
   `name-id-counter-resolvedRoot`, hashes it with SHA-256, and derives from the digest a listening port in
   [3000, 32767) and the output and cache directory names. It then starts either an in-process development server
   or a production build served by a worker thread. The development server gets a hot-reload port one above the
   listening port, unless the caller's `initialConfig` has a `server` entry of its own, which replaces that setting.
   The returned promise settles once, driven by the events that server or worker delivers; output the test
   process prints meanwhile goes into the log buffers. After all tests, unless running on CI or still in the
   starting directory, the directories in the working directory whose names contain `.react-server` are removed.
2. **Context keys** (`packages/react-server/server/symbols.mjs`). The module declares 26 keys with
   `Symbol.for(<name>)`. It is modelled as an enumeration, a name function and its inverse, and a model of the
   process-wide symbol registry.

Files:
- `optional.dfy`: `Option`, for JavaScript's `undefined`.
- `text.dfy`: decimal rendering of numbers as template literals print them, `includes`, `join`.
- `bytes.dfy`: bytes, 32-byte digests, `toString("hex")`, `readUInt32BE`.
- `identity.dfy`: root rules, identity string, ports, directory names, cleanup selection, per-file call counter,
  and the start plan.
- `startup.dfy`: the settle-once session folded over development and worker event traces.
- `symbols.dfy`: the context keys and the `Symbol.for` registry.

SHA-256, `path.join` and `path.dirname` are function-valued fields of `Identity.Platform`. They are uninterpreted,
and every lemma holds for all of them. The HTTP server, the Vite server, the worker, the browser and the file
system appear only through the events and directory entries they deliver.

The Vite cache directory is spelled `.reaact-server-dev-…` in the source. `Identity.CacheDirEscapesCleanup`
proves that the cleanup filter never selects it, as long as the test id has no `.` in it. The model keeps the
spelling as written.

## Model

| member | source | states |
|---|---|---|
| Text.NatToDecimal | test/vitestSetup.mjs:50 | the counter is rendered as a non-empty string of decimal digits with no leading zero |
| Text.DecimalRoundTrip | test/vitestSetup.mjs:50 | reading the rendered digits back gives the counter, so the rendering is injective |
| Text.IntToDecimal | test/vitestSetup.mjs:143-144 | an exit code is rendered with a leading '-' exactly when it is negative, followed by digits |
| Text.IntToDecimalInjective | test/vitestSetup.mjs:143-144 | distinct exit codes render to distinct strings |
| Bytes.Hex | test/vitestSetup.mjs:53 | the hex hash has two characters per digest byte (64 in all), each in 0-9a-f |
| Bytes.HexRoundTrip | test/vitestSetup.mjs:53 | the hex hash decodes back to the digest, so distinct digests give distinct hashes |
| Bytes.ReadUInt32BE | test/vitestSetup.mjs:55 | the value read from digest bytes 0..3 is below 2^32 |
| Bytes.UInt32RoundTrip | test/vitestSetup.mjs:55 | every value below 2^32 is the big-endian reading of its four bytes, whatever bytes follow |
| Bytes.UInt32ReadWrite | test/vitestSetup.mjs:55 | the reading determines bytes 0..3, so the read is a bijection between 4-byte prefixes and [0, 2^32) |
| Identity.RootRules | test/vitestSetup.mjs:50-61 | the three root cases: a root starting with "." resolves to join(cwd, root) and passes unchanged to the server; an absent or empty root resolves to cwd and passes unchanged; any other root resolves to itself and becomes join(cwd, dirname(name), "..", root); the same rule serves the build at lines 111-113 |
| Identity.IdentityDeterminesCounter | test/vitestSetup.mjs:50 | for a fixed name and id, the identity string determines the counter and the resolved root |
| Identity.PortOf | test/vitestSetup.mjs:54-55 | for every digest the port lies in [3000, 32767) |
| Identity.HmrPort | test/vitestSetup.mjs:71 | the hot-reload port lies in (3000, 32767], so it never exceeds MAX_PORT, and it differs from the listening port |
| Identity.PortDependsOnlyOnFirstFourBytes | test/vitestSetup.mjs:55 | two digests that agree on bytes 0..3 give the same port |
| Identity.PortRangeExact | test/vitestSetup.mjs:32-33 | a port is derivable from some digest if and only if it lies in [BASE_PORT, MAX_PORT) |
| Identity.Derive | test/vitestSetup.mjs:48-55 | one call's derivation: the digest is SHA-256 of the identity string, the hash is its hex form (64 characters that decode back to the digest), the port is the one the digest's first four bytes give, in range, and the default hot-reload port is exactly one above it, at most MAX_PORT |
| Identity.SameIdentitySameDerivation | test/vitestSetup.mjs:48-55 | equal identity strings give equal digests, hashes and ports however name, id, counter and root were split, and equal directory names when the ids are also equal |
| Identity.Calls | test/vitestSetup.mjs:34 | successive calls in one test file use counters start, start+1, ...: the counter goes up by exactly one per call |
| Identity.CallsHaveDistinctIdentities | test/vitestSetup.mjs:50 | no two calls in one test file share an identity string |
| Identity.DirNamesEmbedIdAndHash | test/vitestSetup.mjs:63-66 | the development out and cache directory names, and the build out directory of line 103, contain the test id and the hash |
| Identity.OutDirsAreCleanedUp | test/vitestSetup.mjs:170 | the development and build output directories are selected by the cleanup filter |
| Identity.CacheDirEscapesCleanup | test/vitestSetup.mjs:66 | the cache directory, spelled ".reaact-server", is never selected by the cleanup when the test id contains no '.' |
| Identity.HashHasNoDot | test/vitestSetup.mjs:53 | the hex hash contains no '.' |
| Identity.CleanupSelection | test/vitestSetup.mjs:168-171 | an entry is kept if and only if it is a directory whose name contains ".react-server" |
| Identity.CleanupTargets | test/vitestSetup.mjs:165-173 | nothing is removed on CI or when cwd is still the starting directory; otherwise a path is removed if and only if it is join(cwd, name) for a directory entry whose name contains ".react-server", one path per selected entry, in readdir order |
| Identity.PlanFor | test/vitestSetup.mjs:56-121 | the development plan is chosen if and only if NODE_ENV is not "production"; both plans get the same root rule and the derived port; the development server's hot-reload port is one above it when `initialConfig` has no `server` entry, and is whatever that entry sets otherwise (the spread of line 79); the worker receives `initialConfig` unchanged; every output directory holds the id and hash and is selected by the cleanup |
| Identity.DefaultHmrPortInRange | test/vitestSetup.mjs:69-73 | without a caller's `server` entry, the development server gets a hot-reload port that differs from its listening port and lies in (3000, 32767] |
| Startup.Begin | test/vitestSetup.mjs:44-47 | a call starts with a pending promise and both log buffers empty, in a state where the invariants the development and worker folds rely on hold: the one-shot "listening" handler has not run, and no resolve has happened without a hostname |
| Startup.HostnameNamesPort | test/vitestSetup.mjs:86 | the hostname string determines the port it was built from |
| Startup.RunDevOutcome | test/vitestSetup.mjs:85-93 | the development outcome is the verdict of the first "listening" or "error" event, so it settles once and the first settlement wins |
| Startup.RunDevHostname | test/vitestSetup.mjs:85-90 | after the development events, the hostname is http://localhost:<derived port> if a "listening" event arrived, and is unchanged otherwise |
| Startup.RunDevLogs | test/vitestSetup.mjs:85-90 | after the development events, both log buffers hold exactly the joined lines of the test-process output (console.log and console.error, lines 21-30) printed after the first "listening" event, which empties them; without a "listening" event, that output is appended to what they held |
| Startup.DevResolvesIffListeningFirst | test/vitestSetup.mjs:85-93 | development startup resolves if and only if a "listening" event arrives before any server error |
| Startup.ExitMessageNamesCode | test/vitestSetup.mjs:144 | the rejection reason "Worker stopped with exit code N" determines N |
| Startup.RunProdOutcome | test/vitestSetup.mjs:123-146 | the worker outcome is the verdict of the first port message, error message, worker error or non-zero exit, so it settles once and the first settlement wins |
| Startup.SettledStaysSettled | test/vitestSetup.mjs:44 | once settled, no further worker event changes the outcome |
| Startup.ExitCannotOverturnResolve | test/vitestSetup.mjs:141-146 | a later exit, whatever its code, leaves an earlier resolve in place |
| Startup.MessageDispatch | test/vitestSetup.mjs:123-136 | a truthy port sets hostname and ORIGIN to http://localhost:<port>, empties both logs and resolves, and changes nothing else; otherwise a console message only appends its joined line to both logs; otherwise a truthy error only terminates the worker and rejects with that text, leaving logs, hostname, ORIGIN and the error console as they were; any other message changes nothing |
| Startup.DispatchPrecedence | test/vitestSetup.mjs:124-132 | the fields are checked in the order port, console, error: a truthy port hides console and error, and a console hides error |
| Startup.ExitHandling | test/vitestSetup.mjs:141-146 | exit code 0 changes nothing; any other code writes "Worker stopped with exit code N" to the error console and rejects with it, and changes nothing else |
| Startup.WorkerErrorHandling | test/vitestSetup.mjs:137-140 | a worker "error" event writes the error to the saved error console and rejects with it, and changes nothing else |
| Startup.ConsoleForwarding | test/vitestSetup.mjs:130-131 | a run of worker console messages, forwarded through the console.log override of lines 21-24, only appends their joined lines, in order, to both log buffers |
| Startup.RunProdAnnounced | test/vitestSetup.mjs:124-129 | a resolved worker startup has a hostname, and ORIGIN equals it |
| Startup.Serve | test/vitestSetup.mjs:43-154 | a `server()` call: an exception during setup rejects with it; otherwise the outcome is the first verdict of the chosen mode's events; a resolved development call has hostname http://localhost:<derived port>; a resolved worker call has a hostname mirrored into ORIGIN |
| Startup.PortAnnouncementScenario | test/vitestSetup.mjs:124-129 | a worker announcing port 4321 resolves startup with hostname http://localhost:4321 and empty logs |
| Startup.ExitCodeScenario | test/vitestSetup.mjs:141-146 | a worker that logs and then exits with code 2 rejects startup with "Worker stopped with exit code 2" |
| Symbols.Index | packages/react-server/server/symbols.mjs:1-26 | every key sits at a position of the declaration-order table |
| Symbols.AllKeysComplete | packages/react-server/server/symbols.mjs:1-26 | the table holds exactly 26 keys, each once, and every key is in it |
| Symbols.NameRoundTrip | packages/react-server/server/symbols.mjs:1-26 | looking up a key's registry string gives back that key |
| Symbols.FromNameSound | packages/react-server/server/symbols.mjs:1-26 | a lookup succeeds only on a key's exact registry string |
| Symbols.ExportNameIsRegistryString | packages/react-server/server/symbols.mjs:1-26 | each key's exported identifier (the `export const` name, tabulated separately) is the very string it passes to `Symbol.for` |
| Symbols.NameInjective | packages/react-server/server/symbols.mjs:1-26 | the 26 registry strings are pairwise distinct |
| Symbols.SymbolFor | packages/react-server/server/symbols.mjs:1 | Symbol.for returns the registered symbol if there is one, else a new symbol distinct from all registered ones; either way it is registered afterwards and described by the string |
| Symbols.SymbolForTwice | packages/react-server/server/symbols.mjs:1 | deriving a key twice from the same string yields the same symbol and registers nothing new |
| Symbols.SymbolForSeparates | packages/react-server/server/symbols.mjs:1-2 | distinct strings yield distinct symbols |
| Symbols.DefineFrom | packages/react-server/server/symbols.mjs:1-26 | evaluating the declarations from a given one on exports exactly those keys, each registered under and described by its own name, and keeps every earlier registration |
| Symbols.Exports | packages/react-server/server/symbols.mjs:1-26 | the module exports all 26 keys, each described by its name and registered under it, against any prior registry state, which it only extends |
| Symbols.ExportedKeysDistinct | packages/react-server/server/symbols.mjs:1-26 | two different keys are exported as different symbols |
| Symbols.RederivationStable | packages/react-server/server/symbols.mjs:1-26 | calling Symbol.for on a key's name in any later module yields the exported symbol |
| Symbols.CacheKeysDistinct | packages/react-server/server/symbols.mjs:12-15 | MEMORY_CACHE_CONTEXT, CACHE_CONTEXT, FLIGHT_CACHE and HTML_CACHE are mutually distinct |
| Symbols.ConfigKeysDistinct | packages/react-server/server/symbols.mjs:16-18 | CONFIG_ROOT, CONFIG_CONTEXT and CONFIG_PARENT are mutually distinct |

## Left out

- SHA-256 (`node:crypto`): an uninterpreted function from string to 32 bytes. No collision resistance is assumed.
- `path.join` and `path.dirname`: uninterpreted functions. Only which branch passes which arguments is modelled.
- The Vite dev server, the HTTP server, the worker thread, Playwright and `readdir`/`rm` are I/O. They appear only
  as the event traces and directory entries they deliver. The dynamic imports and the build are I/O too. An
  exception thrown while they run is the `setup` argument of `Startup.Serve`.
- The browser's console messages that go into `logs` (lines 40-42) are browser I/O. Output the test process prints
  while the development server runs is the `ServerOutput` event; output printed during the production build,
  before the worker starts, is not modelled, and the worker's port message empties the buffers anyway.
- Identity.PlanFor: of `initialConfig` only its `server` entry, reduced to the `hmr.port` it sets, is modelled. Its
  other keys (including a `customLogger` that replaces the silent one) and other `server` settings are passed
  through to Vite unmodelled.
- Closing an instance after each test (line 158) is only modelled as the `ServerClosed` event closing the Vite
  websocket. A terminate call also makes the worker emit an exit event; that event must appear in the trace.
- Real concurrency and promise timing: startup is a sequential event trace, and the settle-once promise is
  `Startup.Settlement`.
- The harness sets no startup timeout: a startup whose events never settle it stays `Pending`. Closing after each
  test calls `close()` once and does not guard against repeated calls.
- Error objects are modelled by their message text. Console arguments are modelled as strings, joined with " ".
- Startup.MessageDispatch: `msg.port` is a natural number (truthy when non-zero). Other JavaScript values for the
  port (strings, NaN) are not modelled.
- Identity.PortRangeExact: the statistical spread of ports across counters is not stated. Distinct counters give
  distinct identity strings (`Identity.CallsHaveDistinctIdentities`), but ports may still coincide.
- Identity.CleanupTargets: `process.env.CI` is reduced to its truthiness, a boolean.
- Context scopes, the config chain, the cache tiers with coalescing, and the render controller are implemented
  outside these two files and are not part of this model; here they appear only as the keys they are stored under.
- `packages/react-server/bin/commands/dev.mjs`, `test/vitest.config.mjs` and `docs/src/components/Pill.jsx` are
  CLI wiring, test-runner configuration and UI. They are not part of this model.
- A non-zero worker exit after a port message still calls `reject` and writes to the error console; the reject has
  no effect once the promise has resolved (`Startup.ExitCannotOverturnResolve`).

=== FILE: bytes.dfy ===
/** Bytes as Node's `Buffer` exposes them to the harness: a SHA-256 digest,
    its lowercase hex rendering (`toString("hex")`) and the big-endian
    unsigned 32-bit read (`readUInt32BE`). */
module Bytes {
  import opened Optional

  type Byte = b: int | 0 <= b < 256

  /** A SHA-256 digest is exactly 32 bytes. */
  type Digest = s: seq<Byte> | |s| == 32 witness seq(32, _ => 0)

  const TWO_32: nat := 0x1_0000_0000

  predicate IsHexChar(c: char) {
    '0' <= c <= '9' || 'a' <= c <= 'f'
  }

  function HexChar(n: nat): (c: char)
    requires n < 16
    ensures IsHexChar(c)
  {
    if n < 10 then ('0' as int + n) as char else ('a' as int + n - 10) as char
  }

  function HexValue(c: char): (r: Option<nat>)
    ensures r.Some? <==> IsHexChar(c)
    ensures r.Some? ==> r.value < 16
  {
    if '0' <= c <= '9' then Some(c as int - '0' as int)
    else if 'a' <= c <= 'f' then Some(c as int - 'a' as int + 10)
    else None
  }

  /** `Buffer.toString("hex")`: two lowercase digits per byte, high nibble first. */
  function Hex(b: seq<Byte>): (s: string)
    ensures |s| == 2 * |b|
    ensures forall i :: 0 <= i < |s| ==> IsHexChar(s[i])
  {
    if |b| == 0 then "" else [HexChar(b[0] / 16), HexChar(b[0] % 16)] + Hex(b[1..])
  }

  /** The inverse reading of a hex string; `None` for odd length or a non-hex character. */
  function Unhex(s: string): Option<seq<Byte>>
    decreases |s|
  {
    if |s| == 0 then Some([])
    else if |s| == 1 then None
    else
      match (HexValue(s[0]), HexValue(s[1]), Unhex(s[2..]))
      case (Some(hi), Some(lo), Some(rest)) => Some([hi * 16 + lo] + rest)
      case _ => None
  }

  lemma HexCharRoundTrip(n: nat)
    requires n < 16
    ensures HexValue(HexChar(n)) == Some(n)
  {
  }

  /** The hex rendering loses nothing: it reads back to the same bytes. */
  lemma {:induction false} HexRoundTrip(b: seq<Byte>)
    ensures Unhex(Hex(b)) == Some(b)
  {
    if |b| > 0 {
      var s := Hex(b);
      HexCharRoundTrip(b[0] / 16);
      HexCharRoundTrip(b[0] % 16);
      assert s[2..] == Hex(b[1..]);
      HexRoundTrip(b[1..]);
      assert [b[0]] + b[1..] == b;
    }
  }

  lemma HexInjective(a: seq<Byte>, b: seq<Byte>)
    ensures Hex(a) == Hex(b) ==> a == b
  {
    HexRoundTrip(a);
    HexRoundTrip(b);
  }

  /** `buf.readUInt32BE(0)`: bytes 0..3, most significant first. */
  function ReadUInt32BE(d: seq<Byte>): (v: nat)
    requires |d| >= 4
    ensures v < TWO_32
  {
    ((d[0] as int * 256 + d[1]) * 256 + d[2]) * 256 + d[3]
  }

  /** The four big-endian bytes of an unsigned 32-bit value. */
  function UInt32BE(v: nat): (b: seq<Byte>)
    requires v < TWO_32
    ensures |b| == 4
  {
    [v / 0x100_0000, (v / 0x1_0000) % 256, (v / 0x100) % 256, v % 256]
  }

  /** Writing a value and reading it back, whatever bytes follow, gives the value. */
  lemma UInt32RoundTrip(v: nat, rest: seq<Byte>)
    requires v < TWO_32
    ensures ReadUInt32BE(UInt32BE(v) + rest) == v
  {
    var b := UInt32BE(v) + rest;
    var q1 := v / 256;
    var q2 := q1 / 256;
    assert v == q1 * 256 + v % 256;
    assert q1 == q2 * 256 + q1 % 256;
    assert q2 == (q2 / 256) * 256 + q2 % 256;
    assert v / 0x1_0000 == q2;
    assert v / 0x100_0000 == q2 / 256;
    assert b[0] == q2 / 256 && b[1] == q2 % 256 && b[2] == q1 % 256 && b[3] == v % 256;
  }

  /** Reading four bytes and writing the value gives back those four bytes. */
  lemma UInt32ReadWrite(d: seq<Byte>)
    requires |d| >= 4
    ensures UInt32BE(ReadUInt32BE(d)) == d[..4]
  {
    var v := ReadUInt32BE(d);
    var q2 := d[0] as int * 256 + d[1];
    var q1 := q2 * 256 + d[2];
    assert v / 256 == q1 && v % 256 == d[3];
    assert q1 / 256 == q2 && q1 % 256 == d[2];
    assert q2 / 256 == d[0] && q2 % 256 == d[1];
    assert v / 0x1_0000 == q2;
    assert v / 0x100_0000 == d[0];
  }
}

=== FILE: identity.dfy ===
/** How the test harness derives everything a server instance needs from the
    test file it runs for: the resolved root, the identity string, its
    SHA-256 digest, the listening and hot-reload ports, the output and cache
    directory names, and which directories the final cleanup removes. */
module Identity {
  import opened Optional
  import opened Text
  import opened Bytes

  const BASE_PORT: nat := 3000
  const MAX_PORT: nat := 32767

  /** Marker that the cleanup after all tests looks for in directory names. */
  const CLEANUP_MARKER: string := ".react-server"

  /** What the harness takes from Node: the working directory, the
      `node:path` functions `join` and `dirname`, and SHA-256 from
      `node:crypto`. All three functions are left uninterpreted. */
  datatype Platform = Platform(
    cwd: string,
    join: seq<string> -> string,
    dirname: string -> string,
    sha256: string -> Digest)

  /** `root?.[0] === "."`: the root is given and starts with a dot. */
  predicate DotRelative(root: Option<string>) {
    root.Some? && |root.value| > 0 && root.value[0] == '.'
  }

  /** `!root`: the root is absent or the empty string. */
  predicate Falsy(root: Option<string>) {
    root.None? || root.value == ""
  }

  /** The root path that goes into the identity string. */
  function ResolvedRoot(root: Option<string>, p: Platform): string {
    if DotRelative(root) then p.join([p.cwd, root.value])
    else if !Falsy(root) then root.value
    else p.cwd
  }

  /** The root handed to the development server and, identically, to the
      production build: relative-to-cwd and missing roots pass through,
      any other root is taken relative to the parent of the test file's
      directory. */
  function ServerRoot(name: string, root: Option<string>, p: Platform): Option<string> {
    if DotRelative(root) || Falsy(root) then root
    else Some(p.join([p.cwd, p.dirname(name), "..", root.value]))
  }

  /** The two root rules side by side: exactly one of three cases applies,
      and in each the identity root and the server root are as follows. */
  lemma RootRules(name: string, root: Option<string>, p: Platform)
    ensures DotRelative(root) ==> !Falsy(root)
    ensures DotRelative(root) ==>
      ResolvedRoot(root, p) == p.join([p.cwd, root.value]) && ServerRoot(name, root, p) == root
    ensures Falsy(root) ==>
      ResolvedRoot(root, p) == p.cwd && ServerRoot(name, root, p) == root
    ensures !DotRelative(root) && !Falsy(root) ==>
      ResolvedRoot(root, p) == root.value &&
      ServerRoot(name, root, p) == Some(p.join([p.cwd, p.dirname(name), "..", root.value]))
  {
  }

  /** `${name}-${id}-${counter}-${resolvedRoot}`. */
  function IdentityString(name: string, id: string, counter: nat, resolvedRoot: string): string {
    name + "-" + id + "-" + NatToDecimal(counter) + "-" + resolvedRoot
  }

  /** Within one suite (fixed name and id) the identity string determines
      both the counter and the resolved root. */
  lemma IdentityDeterminesCounter(name: string, id: string, c1: nat, c2: nat, r1: string, r2: string)
    ensures IdentityString(name, id, c1, r1) == IdentityString(name, id, c2, r2) ==> c1 == c2 && r1 == r2
  {
    var pre := name + "-" + id + "-";
    var d1 := NatToDecimal(c1);
    var d2 := NatToDecimal(c2);
    var t1 := d1 + (['-'] + r1);
    var t2 := d2 + (['-'] + r2);
    assert IdentityString(name, id, c1, r1) == pre + t1;
    assert IdentityString(name, id, c2, r2) == pre + t2;
    if IdentityString(name, id, c1, r1) == IdentityString(name, id, c2, r2) {
      assert t1 == (pre + t1)[|pre|..];
      assert t2 == (pre + t2)[|pre|..];
      DigitsHaveNoDash(d1);
      DigitsHaveNoDash(d2);
      SeparatorSplit(d1, r1, d2, r2, '-');
      NatToDecimalInjective(c1, c2);
    }
  }

  /** `BASE_PORT + (digest.readUInt32BE(0) % (MAX_PORT - BASE_PORT))`. */
  function PortOf(digest: Digest): (port: nat)
    ensures BASE_PORT <= port < MAX_PORT
  {
    BASE_PORT + ReadUInt32BE(digest) % (MAX_PORT - BASE_PORT)
  }

  /** The hot-reload port, one above the listening port. */
  function HmrPort(port: nat): (hmr: nat)
    requires BASE_PORT <= port < MAX_PORT
    ensures BASE_PORT < hmr <= MAX_PORT
    ensures hmr != port
  {
    port + 1
  }

  /** Only the first four digest bytes influence the port. */
  lemma PortDependsOnlyOnFirstFourBytes(d1: Digest, d2: Digest)
    requires d1[..4] == d2[..4]
    ensures PortOf(d1) == PortOf(d2)
  {
    assert d1[0] == d1[..4][0] && d1[1] == d1[..4][1] && d1[2] == d1[..4][2] && d1[3] == d1[..4][3];
    assert d2[0] == d2[..4][0] && d2[1] == d2[..4][1] && d2[2] == d2[..4][2] && d2[3] == d2[..4][3];
  }

  /** The ports the derivation can produce are exactly [BASE_PORT, MAX_PORT). */
  lemma PortRangeExact(port: int)
    ensures (exists d: Digest :: PortOf(d) == port) <==> BASE_PORT <= port < MAX_PORT
  {
    if BASE_PORT <= port < MAX_PORT {
      var v := port - BASE_PORT;
      var d: Digest := UInt32BE(v) + seq(28, _ => 0);
      UInt32RoundTrip(v, seq(28, _ => 0));
      assert PortOf(d) == port;
    }
  }

  /** Everything one `server()` call derives from its identity string. */
  datatype Derivation = Derivation(identity: string, digest: Digest, hash: string, port: nat, hmrPort: nat)

  function Derive(name: string, id: string, counter: nat, root: Option<string>, p: Platform): (d: Derivation)
    ensures d.identity == IdentityString(name, id, counter, ResolvedRoot(root, p))
    ensures d.digest == p.sha256(d.identity) && d.hash == Hex(d.digest) && d.port == PortOf(d.digest)
    ensures |d.hash| == 64 && Unhex(d.hash) == Some(d.digest)
    ensures BASE_PORT <= d.port < MAX_PORT && d.hmrPort == d.port + 1 <= MAX_PORT
  {
    var identity := IdentityString(name, id, counter, ResolvedRoot(root, p));
    var digest := p.sha256(identity);
    HexRoundTrip(digest);
    var port := PortOf(digest);
    Derivation(identity, digest, Hex(digest), port, HmrPort(port))
  }

  /** Equal identity strings give equal hashes and ports, however the name,
      id, counter and root were split; the directory names embed the id
      itself, so they are equal only when the ids are equal too. */
  lemma SameIdentitySameDerivation(
    n1: string, i1: string, c1: nat, r1: Option<string>,
    n2: string, i2: string, c2: nat, r2: Option<string>, p: Platform)
    requires Derive(n1, i1, c1, r1, p).identity == Derive(n2, i2, c2, r2, p).identity
    ensures Derive(n1, i1, c1, r1, p) == Derive(n2, i2, c2, r2, p)
    ensures i1 == i2 ==>
      DevOutDir(i1, Derive(n1, i1, c1, r1, p).hash) == DevOutDir(i2, Derive(n2, i2, c2, r2, p).hash) &&
      DevCacheDir(i1, Derive(n1, i1, c1, r1, p).hash) == DevCacheDir(i2, Derive(n2, i2, c2, r2, p).hash) &&
      BuildOutDir(i1, Derive(n1, i1, c1, r1, p).hash) == BuildOutDir(i2, Derive(n2, i2, c2, r2, p).hash)
  {
  }

  /** The derivations of successive `server()` calls in one test file: the
      counter starts at `start` (0 when the file is loaded) and goes up by
      exactly one per call. */
  function Calls(name: string, id: string, start: nat, roots: seq<Option<string>>, p: Platform): (ds: seq<Derivation>)
    ensures |ds| == |roots|
    ensures forall i :: 0 <= i < |ds| ==> ds[i] == Derive(name, id, start + i, roots[i], p)
    decreases |roots|
  {
    if |roots| == 0 then []
    else
      var rest := Calls(name, id, start + 1, roots[1..], p);
      [Derive(name, id, start, roots[0], p)] + rest
  }

  /** No two calls in one test file share an identity string. */
  lemma CallsHaveDistinctIdentities(name: string, id: string, start: nat, roots: seq<Option<string>>, p: Platform)
    ensures forall i, j :: 0 <= i < j < |roots| ==>
      Calls(name, id, start, roots, p)[i].identity != Calls(name, id, start, roots, p)[j].identity
  {
    var ds := Calls(name, id, start, roots, p);
    var rs := seq(|roots|, i requires 0 <= i < |roots| => ResolvedRoot(roots[i], p));
    CountersSeparateIdentities(name, id, start, rs, ds);
  }

  lemma CountersSeparateIdentities(name: string, id: string, start: nat, rs: seq<string>, ds: seq<Derivation>)
    requires |ds| == |rs|
    requires forall i :: 0 <= i < |ds| ==> ds[i].identity == IdentityString(name, id, start + i, rs[i])
    ensures forall i, j :: 0 <= i < j < |ds| ==> ds[i].identity != ds[j].identity
  {
    forall i, j | 0 <= i < j < |ds|
      ensures ds[i].identity != ds[j].identity
    {
      IdentityDeterminesCounter(name, id, start + i, start + j, rs[i], rs[j]);
    }
  }

  /** Development output directory. */
  function DevOutDir(id: string, hash: string): string {
    ".react-server-dev-" + id + "-" + hash
  }

  /** Development (Vite) cache directory; the source spells it ".reaact-server". */
  function DevCacheDir(id: string, hash: string): string {
    ".reaact-server-dev-" + id + "-" + hash + "-vite-cache"
  }

  /** Production build output directory. */
  function BuildOutDir(id: string, hash: string): string {
    ".react-server-build-" + id + "-" + hash
  }

  /** `prefix + id + "-" + hash` contains both the id and the hash. */
  lemma EmbedsIdAndHash(prefix: string, id: string, hash: string)
    ensures Contains(prefix + id + "-" + hash, id)
    ensures Contains(prefix + id + "-" + hash, hash)
  {
    ContainsSelf(id);
    ContainsExtendLeft(prefix, id, id);
    ContainsExtendRight(prefix + id, "-", id);
    ContainsExtendRight(prefix + id + "-", hash, id);
    ContainsSelf(hash);
    ContainsExtendLeft(prefix + id + "-", hash, hash);
  }

  /** All three directory names embed the test id and the hash. */
  lemma DirNamesEmbedIdAndHash(id: string, hash: string)
    ensures Contains(DevOutDir(id, hash), id) && Contains(DevOutDir(id, hash), hash)
    ensures Contains(DevCacheDir(id, hash), id) && Contains(DevCacheDir(id, hash), hash)
    ensures Contains(BuildOutDir(id, hash), id) && Contains(BuildOutDir(id, hash), hash)
  {
    EmbedsIdAndHash(".react-server-dev-", id, hash);
    EmbedsIdAndHash(".reaact-server-dev-", id, hash);
    ContainsExtendRight(".reaact-server-dev-" + id + "-" + hash, "-vite-cache", id);
    ContainsExtendRight(".reaact-server-dev-" + id + "-" + hash, "-vite-cache", hash);
    EmbedsIdAndHash(".react-server-build-", id, hash);
  }

  /** A directory entry as `readdir(..., { withFileTypes: true })` reports it. */
  datatype DirEntry = DirEntry(name: string, isDirectory: bool)

  predicate SelectedForCleanup(e: DirEntry) {
    e.isDirectory && Contains(e.name, CLEANUP_MARKER)
  }

  /** The entries the cleanup keeps, in `readdir` order. */
  function CleanupSelection(entries: seq<DirEntry>): (r: seq<DirEntry>)
    ensures forall e :: e in r <==> e in entries && SelectedForCleanup(e)
    ensures |r| <= |entries|
  {
    if |entries| == 0 then []
    else (if SelectedForCleanup(entries[0]) then [entries[0]] else []) + CleanupSelection(entries[1..])
  }

  /** The paths removed after all tests: nothing on CI or when the working
      directory is still the one the harness started in; otherwise every
      selected directory, joined onto the working directory. */
  function CleanupTargets(ci: bool, testCwd: string, p: Platform, entries: seq<DirEntry>): (paths: seq<string>)
    ensures ci || testCwd == p.cwd ==> paths == []
    ensures !ci && testCwd != p.cwd ==>
      forall path :: path in paths <==> exists e :: e in entries && SelectedForCleanup(e) && path == p.join([p.cwd, e.name])
    ensures !ci && testCwd != p.cwd ==>
      |paths| == |CleanupSelection(entries)| &&
      forall i :: 0 <= i < |paths| ==> paths[i] == p.join([p.cwd, CleanupSelection(entries)[i].name])
  {
    if ci || testCwd == p.cwd then []
    else
      var sel := CleanupSelection(entries);
      var paths := seq(|sel|, i requires 0 <= i < |sel| => p.join([p.cwd, sel[i].name]));
      SelectedPathsRemoved(p, entries, sel, paths);
      paths
  }

  /** Every path in the list is a selected entry joined onto the working
      directory, and every selected entry's path is in the list. */
  lemma SelectedPathsRemoved(p: Platform, entries: seq<DirEntry>, sel: seq<DirEntry>, paths: seq<string>)
    requires sel == CleanupSelection(entries)
    requires |paths| == |sel| && forall i :: 0 <= i < |sel| ==> paths[i] == p.join([p.cwd, sel[i].name])
    ensures forall path :: path in paths <==> exists e :: e in entries && SelectedForCleanup(e) && path == p.join([p.cwd, e.name])
  {
    forall path
      ensures path in paths <==> exists e :: e in entries && SelectedForCleanup(e) && path == p.join([p.cwd, e.name])
    {
      if path in paths {
        var i :| 0 <= i < |paths| && paths[i] == path;
        assert sel[i] in sel;
      }
      if exists e :: e in entries && SelectedForCleanup(e) && path == p.join([p.cwd, e.name]) {
        var e :| e in entries && SelectedForCleanup(e) && path == p.join([p.cwd, e.name]);
        assert e in sel;
        var i :| 0 <= i < |sel| && sel[i] == e;
        assert paths[i] == path;
      }
    }
  }

  /** The development and build output directories are removed by the cleanup. */
  lemma OutDirsAreCleanedUp(id: string, hash: string)
    ensures SelectedForCleanup(DirEntry(DevOutDir(id, hash), true))
    ensures SelectedForCleanup(DirEntry(BuildOutDir(id, hash), true))
  {
    MarkerStartsName("-dev-", id + "-" + hash);
    assert DevOutDir(id, hash) == CLEANUP_MARKER + "-dev-" + (id + "-" + hash);
    MarkerStartsName("-build-", id + "-" + hash);
    assert BuildOutDir(id, hash) == CLEANUP_MARKER + "-build-" + (id + "-" + hash);
  }

  lemma MarkerStartsName(infix: string, rest: string)
    ensures Contains(CLEANUP_MARKER + infix + rest, CLEANUP_MARKER)
  {
    ContainsSelf(CLEANUP_MARKER);
    ContainsExtendRight(CLEANUP_MARKER, infix, CLEANUP_MARKER);
    ContainsExtendRight(CLEANUP_MARKER + infix, rest, CLEANUP_MARKER);
  }

  /** Because of its spelling, the cache directory is never removed by the
      cleanup, as long as the test id has no '.' (the hex hash never does). */
  lemma CacheDirEscapesCleanup(id: string, hash: string)
    requires '.' !in id && '.' !in hash
    ensures !SelectedForCleanup(DirEntry(DevCacheDir(id, hash), true))
  {
    var s := DevCacheDir(id, hash);
    var pre := ".reaact-server-dev-";
    var mid := "-vite-cache";
    assert s == pre + id + "-" + hash + mid;
    forall j | 0 < j < |s|
      ensures s[j] != '.'
    {
      if j < |pre| {
        assert s[j] == pre[j];
      } else if j < |pre| + |id| {
        assert s[j] == id[j - |pre|];
      } else if j == |pre| + |id| {
        assert s[j] == '-';
      } else if j < |pre| + |id| + 1 + |hash| {
        assert s[j] == hash[j - |pre| - |id| - 1];
      } else {
        assert s[j] == mid[j - |pre| - |id| - 1 - |hash|];
      }
    }
    forall i | 0 <= i <= |s|
      ensures !OccursAt(s, CLEANUP_MARKER, i)
    {
      if i + |CLEANUP_MARKER| <= |s| {
        if i == 0 {
          assert s[..|CLEANUP_MARKER|][4] == 'a';
        } else {
          assert s[i..i + |CLEANUP_MARKER|][0] == s[i] != '.';
        }
      }
    }
  }

  /** The hex hash contains no dot. */
  lemma HashHasNoDot(digest: Digest)
    ensures '.' !in Hex(digest)
  {
  }

  /** The `server` entry of a caller's `initialConfig`, reduced to the
      hot-reload port it sets through `hmr.port`, if it sets one. */
  datatype ServerOptions = ServerOptions(hmrPort: Option<nat>)

  /** The part of `initialConfig` that meets the harness's own settings: its
      `server` entry, if it has one. An absent `initialConfig` spreads
      nothing and is `InitialConfig(None)`. */
  datatype InitialConfig = InitialConfig(server: Option<ServerOptions>)

  /** `hmrPort` is the hot-reload port the development server is given, if
      any; the build plan keeps the `initialConfig` handed to the worker. */
  datatype Plan =
    | DevPlan(root: Option<string>, outDir: string, cacheDir: string, port: nat, hmrPort: Option<nat>)
    | BuildPlan(root: Option<string>, outDir: string, port: nat, config: InitialConfig)

  /** `process.env.NODE_ENV === "production"`. */
  predicate IsProduction(nodeEnv: Option<string>) {
    nodeEnv == Some("production")
  }

  /** What one `server()` call starts: the development server with its
      out/cache directories and ports, or the production build and worker.
      The caller's `initialConfig` is spread after the harness's
      `server: { hmr: { port: port + 1 } }`, so a `server` entry of its own
      replaces that setting wholesale. */
  function PlanFor(nodeEnv: Option<string>, name: string, id: string, root: Option<string>,
                   config: InitialConfig, d: Derivation, p: Platform): (plan: Plan)
    ensures plan.DevPlan? <==> !IsProduction(nodeEnv)
    ensures plan.root == ServerRoot(name, root, p)
    ensures plan.port == d.port
    ensures plan.DevPlan? && config.server.None? ==> plan.hmrPort == Some(plan.port + 1)
    ensures plan.DevPlan? && config.server.Some? ==> plan.hmrPort == config.server.value.hmrPort
    ensures plan.BuildPlan? ==> plan.config == config
    ensures Contains(plan.outDir, id) && Contains(plan.outDir, d.hash)
    ensures SelectedForCleanup(DirEntry(plan.outDir, true))
    ensures plan.DevPlan? ==> Contains(plan.cacheDir, id) && Contains(plan.cacheDir, d.hash)
  {
    DirNamesEmbedIdAndHash(id, d.hash);
    OutDirsAreCleanedUp(id, d.hash);
    if IsProduction(nodeEnv) then
      BuildPlan(ServerRoot(name, root, p), BuildOutDir(id, d.hash), d.port, config)
    else
      var hmrPort := if config.server.Some? then config.server.value.hmrPort else Some(d.port + 1);
      DevPlan(ServerRoot(name, root, p), DevOutDir(id, d.hash), DevCacheDir(id, d.hash), d.port, hmrPort)
  }

  /** Without a `server` entry of the caller's, the hot-reload port of a
      derived plan is free of the server port and inside the port range. */
  lemma DefaultHmrPortInRange(nodeEnv: Option<string>, name: string, id: string, counter: nat,
                              root: Option<string>, p: Platform)
    requires !IsProduction(nodeEnv)
    ensures var plan := PlanFor(nodeEnv, name, id, root, InitialConfig(None), Derive(name, id, counter, root, p), p);
      plan.hmrPort.Some? && plan.hmrPort.value != plan.port && BASE_PORT < plan.hmrPort.value <= MAX_PORT
  {
  }
}

=== FILE: optional.dfy ===
/** A value that may be absent: JavaScript's `undefined` for an optional
    argument or an optional message field. */
module Optional {

  datatype Option<+T> = None | Some(value: T)
}

=== FILE: startup.dfy ===
/** Startup of one server instance as the harness observes it: the promise
    returned by `server()` settles once, driven by the events the
    development HTTP server or the production worker delivers. The
    handlers' side effects (hostname, logs, worker termination) happen on
    every event, even after the promise has settled. */
module Startup {
  import opened Optional
  import opened Text
  import Identity

  /** The state of the promise `server()` returns. */
  datatype Settlement = Pending | Resolved | Rejected(reason: string)

  /** `resolve(..)` / `reject(..)`: only the first call has an effect. */
  function Settle(current: Settlement, verdict: Settlement): Settlement {
    if current.Pending? then verdict else current
  }

  /** `http://localhost:${port}`. */
  function Hostname(port: nat): string {
    "http://localhost:" + NatToDecimal(port)
  }

  /** The hostname names the port it was built from. */
  lemma HostnameNamesPort(a: nat, b: nat)
    ensures Hostname(a) == Hostname(b) ==> a == b
  {
    var pre := "http://localhost:";
    if Hostname(a) == Hostname(b) {
      assert Hostname(a)[|pre|..] == NatToDecimal(a);
      assert Hostname(b)[|pre|..] == NatToDecimal(b);
      NatToDecimalInjective(a, b);
    }
  }

  /** What the harness holds while an instance starts. */
  datatype Session = Session(
    outcome: Settlement,
    hostname: Option<string>,   // the exported `hostname`
    origin: Option<string>,     // `process.env.ORIGIN`
    logs: seq<string>,
    serverLogs: seq<string>,
    stderr: seq<string>,        // lines written through the saved `console.error`
    listenHandled: bool,        // the one-shot "listening" handler has run
    wsClosed: bool,             // development: the Vite websocket was closed
    workerTerminated: bool)     // production: `worker.terminate()` was called

  /** The start of a `server()` call: both log buffers emptied and the
      promise pending, so the invariants both event folds rely on hold. */
  function Begin(hostname: Option<string>, origin: Option<string>): (s: Session)
    ensures s.outcome.Pending? && s.logs == [] && s.serverLogs == []
    ensures DevConsistent(s) && Announced(s) && !s.listenHandled && s.stderr == []
  {
    Session(Pending, hostname, origin, [], [], [], false, false, false)
  }

  // ---------------------------------------------------------------------
  // Development: events of the in-process HTTP server

  /** `ServerOutput(args)` is a `console.log` or `console.error` call made
      in the test process while the development server runs in it. */
  datatype DevEvent = Listening | ServerError(error: string) | ServerClosed | ServerOutput(args: seq<string>)

  function DevStep(s: Session, port: nat, e: DevEvent): Session {
    match e
    case Listening =>
      if s.listenHandled then s
      else s.(hostname := Some(Hostname(port)), logs := [], serverLogs := [],
              outcome := Settle(s.outcome, Resolved), listenHandled := true)
    case ServerError(err) => s.(outcome := Settle(s.outcome, Rejected(err)))
    case ServerClosed => s.(wsClosed := true)
    case ServerOutput(args) =>
      var line := Join(args, " ");
      s.(logs := s.logs + [line], serverLogs := s.serverLogs + [line])
  }

  function RunDev(s: Session, port: nat, es: seq<DevEvent>): Session
    decreases |es|
  {
    if |es| == 0 then s else RunDev(DevStep(s, port, es[0]), port, es[1..])
  }

  /** How a single development event would settle a pending promise. */
  function DevVerdict(e: DevEvent): Settlement {
    match e
    case Listening => Resolved
    case ServerError(err) => Rejected(err)
    case ServerClosed => Pending
    case ServerOutput(_) => Pending
  }

  /** Reference outcome: the verdict of the first event that has one. */
  function FirstDevVerdict(es: seq<DevEvent>): Settlement {
    if |es| == 0 then Pending
    else if !DevVerdict(es[0]).Pending? then DevVerdict(es[0])
    else FirstDevVerdict(es[1..])
  }

  /** The one-shot listener only runs while the promise is still open or
      after it already resolved through it. */
  predicate DevConsistent(s: Session) {
    s.listenHandled ==> !s.outcome.Pending?
  }

  /** Folding the events gives the first event's verdict: the promise
      settles once and the first settlement wins. */
  lemma {:induction false} RunDevOutcome(s: Session, port: nat, es: seq<DevEvent>)
    requires DevConsistent(s)
    ensures DevConsistent(RunDev(s, port, es))
    ensures RunDev(s, port, es).outcome == Settle(s.outcome, FirstDevVerdict(es))
    decreases |es|
  {
    if |es| > 0 {
      RunDevOutcome(DevStep(s, port, es[0]), port, es[1..]);
    }
  }

  /** The development hostname is the derived port's, set exactly when a
      "listening" event arrived. */
  lemma {:induction false} RunDevHostname(s: Session, port: nat, es: seq<DevEvent>)
    requires !s.listenHandled
    ensures RunDev(s, port, es).hostname == if Listening in es then Some(Hostname(port)) else s.hostname
    decreases |es|
  {
    if |es| > 0 {
      var t := DevStep(s, port, es[0]);
      if es[0] == Listening {
        DevHandledKeepsHostname(t, port, es[1..]);
      } else {
        RunDevHostname(t, port, es[1..]);
        assert Listening in es <==> Listening in es[1..];
      }
    }
  }

  lemma {:induction false} DevHandledKeepsHostname(s: Session, port: nat, es: seq<DevEvent>)
    requires s.listenHandled
    ensures RunDev(s, port, es).hostname == s.hostname
    decreases |es|
  {
    if |es| > 0 {
      DevHandledKeepsHostname(DevStep(s, port, es[0]), port, es[1..]);
    }
  }

  /** The joined lines of the test-process output events, in order. */
  function DevOutputLines(es: seq<DevEvent>): seq<string> {
    if |es| == 0 then []
    else (if es[0].ServerOutput? then [Join(es[0].args, " ")] else []) + DevOutputLines(es[1..])
  }

  /** The position of the first "listening" event. */
  function FirstListening(es: seq<DevEvent>): (i: nat)
    requires Listening in es
    ensures i < |es| && es[i] == Listening && Listening !in es[..i]
  {
    if es[0] == Listening then 0
    else
      assert Listening in es[1..];
      var j := FirstListening(es[1..]);
      assert es[..j + 1] == [es[0]] + es[1..][..j];
      1 + j
  }

  /** Once the "listening" handler has run, the buffers only collect output. */
  lemma {:induction false} HandledLogs(s: Session, port: nat, es: seq<DevEvent>)
    requires s.listenHandled
    ensures RunDev(s, port, es).logs == s.logs + DevOutputLines(es)
    ensures RunDev(s, port, es).serverLogs == s.serverLogs + DevOutputLines(es)
    decreases |es|
  {
    if |es| > 0 {
      var t := DevStep(s, port, es[0]);
      var head := if es[0].ServerOutput? then [Join(es[0].args, " ")] else [];
      assert t.logs == s.logs + head && t.serverLogs == s.serverLogs + head && t.listenHandled;
      HandledLogs(t, port, es[1..]);
      assert DevOutputLines(es) == head + DevOutputLines(es[1..]);
      assert s.logs + head + DevOutputLines(es[1..]) == s.logs + DevOutputLines(es);
      assert s.serverLogs + head + DevOutputLines(es[1..]) == s.serverLogs + DevOutputLines(es);
    } else {
      assert s.logs + [] == s.logs && s.serverLogs + [] == s.serverLogs;
    }
  }

  /** Before the "listening" handler runs, the buffers also only collect output. */
  lemma {:induction false} UnhandledLogs(s: Session, port: nat, es: seq<DevEvent>)
    requires !s.listenHandled && Listening !in es
    ensures !RunDev(s, port, es).listenHandled
    ensures RunDev(s, port, es).logs == s.logs + DevOutputLines(es)
    ensures RunDev(s, port, es).serverLogs == s.serverLogs + DevOutputLines(es)
    decreases |es|
  {
    if |es| > 0 {
      var t := DevStep(s, port, es[0]);
      var head := if es[0].ServerOutput? then [Join(es[0].args, " ")] else [];
      assert t.logs == s.logs + head && t.serverLogs == s.serverLogs + head && !t.listenHandled;
      assert Listening !in es[1..];
      UnhandledLogs(t, port, es[1..]);
      assert DevOutputLines(es) == head + DevOutputLines(es[1..]);
      assert s.logs + head + DevOutputLines(es[1..]) == s.logs + DevOutputLines(es);
      assert s.serverLogs + head + DevOutputLines(es[1..]) == s.serverLogs + DevOutputLines(es);
    } else {
      assert s.logs + [] == s.logs && s.serverLogs + [] == s.serverLogs;
    }
  }

  lemma {:induction false} RunDevAppend(s: Session, port: nat, a: seq<DevEvent>, b: seq<DevEvent>)
    ensures RunDev(s, port, a + b) == RunDev(RunDev(s, port, a), port, b)
    decreases |a|
  {
    if |a| > 0 {
      assert (a + b)[0] == a[0] && (a + b)[1..] == a[1..] + b;
      RunDevAppend(DevStep(s, port, a[0]), port, a[1..], b);
    } else {
      assert a + b == b;
    }
  }

  /** The first "listening" event empties both buffers, so what remains is
      the output printed after it; without one, the output is appended to
      what the buffers held. */
  lemma RunDevLogs(s: Session, port: nat, es: seq<DevEvent>)
    requires !s.listenHandled
    ensures Listening !in es ==>
      RunDev(s, port, es).logs == s.logs + DevOutputLines(es) &&
      RunDev(s, port, es).serverLogs == s.serverLogs + DevOutputLines(es)
    ensures Listening in es ==>
      RunDev(s, port, es).logs == DevOutputLines(es[FirstListening(es) + 1..]) &&
      RunDev(s, port, es).serverLogs == DevOutputLines(es[FirstListening(es) + 1..])
  {
    if Listening !in es {
      UnhandledLogs(s, port, es);
    } else {
      var i := FirstListening(es);
      var before, after := es[..i], es[i + 1..];
      assert es == before + ([Listening] + after);
      UnhandledLogs(s, port, before);
      RunDevAppend(s, port, before, [Listening] + after);
      var u := RunDev(s, port, before);
      assert ([Listening] + after)[0] == Listening && ([Listening] + after)[1..] == after;
      var v := DevStep(u, port, Listening);
      assert RunDev(u, port, [Listening] + after) == RunDev(v, port, after);
      assert v.logs == [] && v.serverLogs == [] && v.listenHandled;
      HandledLogs(v, port, after);
      assert [] + DevOutputLines(after) == DevOutputLines(after);
    }
  }

  /** Development startup resolves exactly when a "listening" event
      arrives before any server error. */
  lemma {:induction false} DevResolvesIffListeningFirst(es: seq<DevEvent>)
    ensures FirstDevVerdict(es) == Resolved <==>
      exists i :: 0 <= i < |es| && es[i] == Listening && forall j :: 0 <= j < i ==> !es[j].ServerError?
    decreases |es|
  {
    if |es| > 0 {
      DevResolvesIffListeningFirst(es[1..]);
      if es[0] == Listening {
        assert es[0] == Listening;
      } else if es[0].ServerError? {
        forall i | 0 <= i < |es| && es[i] == Listening
          ensures exists j :: 0 <= j < i && es[j].ServerError?
        {
          assert 0 < i && es[0].ServerError?;
        }
      } else {
        var rest := es[1..];
        if FirstDevVerdict(rest) == Resolved {
          var i :| 0 <= i < |rest| && rest[i] == Listening && forall j :: 0 <= j < i ==> !rest[j].ServerError?;
          assert es[i + 1] == Listening;
          forall j | 0 <= j < i + 1
            ensures !es[j].ServerError?
          {
            if j > 0 {
              assert es[j] == rest[j - 1];
            }
          }
        }
        if exists i :: 0 <= i < |es| && es[i] == Listening && forall j :: 0 <= j < i ==> !es[j].ServerError? {
          var i :| 0 <= i < |es| && es[i] == Listening && forall j :: 0 <= j < i ==> !es[j].ServerError?;
          assert i > 0;
          assert rest[i - 1] == Listening;
          forall j | 0 <= j < i - 1
            ensures !rest[j].ServerError?
          {
            assert rest[j] == es[j + 1];
          }
        }
      }
    }
  }

  // ---------------------------------------------------------------------
  // Production: messages and lifecycle events of the worker

  /** A message posted by the worker; any of the three fields may be absent. */
  datatype WorkerMessage = WorkerMessage(port: Option<nat>, console: Option<seq<string>>, error: Option<string>)

  /** `msg.port` is truthy: present and non-zero. */
  predicate PortTruthy(m: WorkerMessage) {
    m.port.Some? && m.port.value != 0
  }

  /** `msg.console` is truthy: an array always is. */
  predicate ConsoleTruthy(m: WorkerMessage) {
    m.console.Some?
  }

  /** `msg.error` is truthy: a non-empty string. */
  predicate ErrorTruthy(m: WorkerMessage) {
    m.error.Some? && m.error.value != ""
  }

  datatype WorkerEvent = Message(msg: WorkerMessage) | WorkerError(error: string) | Exit(code: int)

  /** The reason given when the worker exits with a non-zero code. */
  function ExitMessage(code: int): string {
    "Worker stopped with exit code " + IntToDecimal(code)
  }

  /** The rejection reason identifies the exit code. */
  lemma ExitMessageNamesCode(a: int, b: int)
    ensures ExitMessage(a) == ExitMessage(b) ==> a == b
  {
    var pre := "Worker stopped with exit code ";
    if ExitMessage(a) == ExitMessage(b) {
      assert ExitMessage(a)[|pre|..] == IntToDecimal(a);
      assert ExitMessage(b)[|pre|..] == IntToDecimal(b);
      IntToDecimalInjective(a, b);
    }
  }

  function ProdStep(s: Session, e: WorkerEvent): Session {
    match e
    case Message(m) =>
      if PortTruthy(m) then
        var h := Hostname(m.port.value);
        s.(hostname := Some(h), origin := Some(h), logs := [], serverLogs := [],
           outcome := Settle(s.outcome, Resolved))
      else if ConsoleTruthy(m) then
        var line := Join(m.console.value, " ");
        s.(logs := s.logs + [line], serverLogs := s.serverLogs + [line])
      else if ErrorTruthy(m) then
        s.(workerTerminated := true, outcome := Settle(s.outcome, Rejected(m.error.value)))
      else s
    case WorkerError(err) =>
      s.(stderr := s.stderr + [err], outcome := Settle(s.outcome, Rejected(err)))
    case Exit(code) =>
      if code != 0 then
        s.(stderr := s.stderr + [ExitMessage(code)], outcome := Settle(s.outcome, Rejected(ExitMessage(code))))
      else s
  }

  function RunProd(s: Session, es: seq<WorkerEvent>): Session
    decreases |es|
  {
    if |es| == 0 then s else RunProd(ProdStep(s, es[0]), es[1..])
  }

  /** How a single worker event would settle a pending promise. */
  function ProdVerdict(e: WorkerEvent): Settlement {
    match e
    case Message(m) =>
      if PortTruthy(m) then Resolved
      else if !ConsoleTruthy(m) && ErrorTruthy(m) then Rejected(m.error.value)
      else Pending
    case WorkerError(err) => Rejected(err)
    case Exit(code) => if code != 0 then Rejected(ExitMessage(code)) else Pending
  }

  /** Reference outcome: the verdict of the first worker event that has one. */
  function FirstProdVerdict(es: seq<WorkerEvent>): Settlement {
    if |es| == 0 then Pending
    else if !ProdVerdict(es[0]).Pending? then ProdVerdict(es[0])
    else FirstProdVerdict(es[1..])
  }

  /** Folding the worker events gives the first event's verdict: the promise
      settles once and the first settlement wins. */
  lemma {:induction false} RunProdOutcome(s: Session, es: seq<WorkerEvent>)
    ensures RunProd(s, es).outcome == Settle(s.outcome, FirstProdVerdict(es))
    decreases |es|
  {
    if |es| > 0 {
      RunProdOutcome(ProdStep(s, es[0]), es[1..]);
    }
  }

  lemma {:induction false} RunProdAppend(s: Session, a: seq<WorkerEvent>, b: seq<WorkerEvent>)
    ensures RunProd(s, a + b) == RunProd(RunProd(s, a), b)
    decreases |a|
  {
    if |a| > 0 {
      assert (a + b)[0] == a[0] && (a + b)[1..] == a[1..] + b;
      RunProdAppend(ProdStep(s, a[0]), a[1..], b);
    } else {
      assert a + b == b;
    }
  }

  /** Once settled, no further worker event changes the outcome. */
  lemma SettledStaysSettled(s: Session, es: seq<WorkerEvent>)
    requires !s.outcome.Pending?
    ensures RunProd(s, es).outcome == s.outcome
  {
    RunProdOutcome(s, es);
  }

  /** A later exit, whatever its code, cannot overturn an earlier resolve. */
  lemma ExitCannotOverturnResolve(s: Session, es: seq<WorkerEvent>, code: int)
    requires RunProd(s, es).outcome == Resolved
    ensures RunProd(s, es + [Exit(code)]).outcome == Resolved
  {
    RunProdAppend(s, es, [Exit(code)]);
    SettledStaysSettled(RunProd(s, es), [Exit(code)]);
  }

  /** The effect of one worker message, by the first truthy field in the
      order port, console, error. */
  lemma MessageDispatch(s: Session, m: WorkerMessage)
    ensures PortTruthy(m) ==>
      var h := "http://localhost:" + NatToDecimal(m.port.value);
      ProdStep(s, Message(m)) ==
        s.(hostname := Some(h), origin := Some(h), logs := [], serverLogs := [],
           outcome := if s.outcome.Pending? then Resolved else s.outcome)
    ensures !PortTruthy(m) && ConsoleTruthy(m) ==>
      var t := ProdStep(s, Message(m));
      t == s.(logs := s.logs + [Join(m.console.value, " ")], serverLogs := s.serverLogs + [Join(m.console.value, " ")])
    ensures !PortTruthy(m) && !ConsoleTruthy(m) && ErrorTruthy(m) ==>
      ProdStep(s, Message(m)) ==
        s.(workerTerminated := true, outcome := if s.outcome.Pending? then Rejected(m.error.value) else s.outcome)
    ensures !PortTruthy(m) && !ConsoleTruthy(m) && !ErrorTruthy(m) ==> ProdStep(s, Message(m)) == s
  {
  }

  /** Precedence: a truthy port hides the console and error fields, and a
      truthy console hides the error field. */
  lemma DispatchPrecedence(s: Session, m: WorkerMessage)
    ensures PortTruthy(m) ==>
      ProdStep(s, Message(m)) == ProdStep(s, Message(WorkerMessage(m.port, None, None)))
    ensures ConsoleTruthy(m) ==>
      ProdStep(s, Message(m)) == ProdStep(s, Message(WorkerMessage(m.port, m.console, None)))
  {
  }

  /** Exit code 0 changes nothing; any other code rejects with a reason
      naming it and writes that reason to the error console, and changes
      nothing else. */
  lemma ExitHandling(s: Session, code: int)
    ensures code == 0 ==> ProdStep(s, Exit(code)) == s
    ensures code != 0 ==>
      ProdStep(s, Exit(code)) ==
        s.(stderr := s.stderr + ["Worker stopped with exit code " + IntToDecimal(code)],
           outcome := if s.outcome.Pending? then Rejected("Worker stopped with exit code " + IntToDecimal(code)) else s.outcome)
  {
  }

  /** A worker "error" event writes the error to the saved error console and
      rejects with it; nothing else changes. */
  lemma WorkerErrorHandling(s: Session, err: string)
    ensures ProdStep(s, WorkerError(err)) ==
      s.(stderr := s.stderr + [err], outcome := if s.outcome.Pending? then Rejected(err) else s.outcome)
  {
  }

  /** A console-only message stream only appends its lines to both buffers. */
  predicate IsConsoleMessage(e: WorkerEvent) {
    e.Message? && !PortTruthy(e.msg) && ConsoleTruthy(e.msg)
  }

  function ConsoleLines(es: seq<WorkerEvent>): seq<string>
    requires forall i :: 0 <= i < |es| ==> IsConsoleMessage(es[i])
  {
    if |es| == 0 then []
    else
      assert IsConsoleMessage(es[0]);
      [Join(es[0].msg.console.value, " ")] + ConsoleLines(es[1..])
  }

  lemma {:induction false} ConsoleForwarding(s: Session, es: seq<WorkerEvent>)
    requires forall i :: 0 <= i < |es| ==> IsConsoleMessage(es[i])
    ensures RunProd(s, es) ==
      s.(logs := s.logs + ConsoleLines(es), serverLogs := s.serverLogs + ConsoleLines(es))
    decreases |es|
  {
    if |es| > 0 {
      var line := Join(es[0].msg.console.value, " ");
      ConsoleForwarding(ProdStep(s, es[0]), es[1..]);
      assert s.logs + [line] + ConsoleLines(es[1..]) == s.logs + ConsoleLines(es);
      assert s.serverLogs + [line] + ConsoleLines(es[1..]) == s.serverLogs + ConsoleLines(es);
    } else {
      assert s.logs + [] == s.logs && s.serverLogs + [] == s.serverLogs;
    }
  }

  /** A resolved production startup has announced a hostname and mirrored
      it into `ORIGIN`. */
  predicate Announced(s: Session) {
    s.outcome == Resolved ==> s.hostname.Some? && s.origin == s.hostname
  }

  lemma {:induction false} RunProdAnnounced(s: Session, es: seq<WorkerEvent>)
    requires Announced(s)
    ensures Announced(RunProd(s, es))
    decreases |es|
  {
    if |es| > 0 {
      ProdStepAnnounced(s, es[0]);
      RunProdAnnounced(ProdStep(s, es[0]), es[1..]);
    }
  }

  /** A single worker event keeps the announcement invariant: the only event
      that resolves also sets the hostname and the origin together. */
  lemma ProdStepAnnounced(s: Session, e: WorkerEvent)
    requires Announced(s)
    ensures Announced(ProdStep(s, e))
  {
  }

  // ---------------------------------------------------------------------
  // One `server()` call

  datatype Events = DevEvents(dev: seq<DevEvent>) | WorkerEvents(worker: seq<WorkerEvent>)

  /** A `server()` call: `setup` is the exception thrown while importing,
      starting the dev server or building, if any; otherwise the events of
      the chosen mode drive the session. */
  function Serve(plan: Identity.Plan, hostname: Option<string>, origin: Option<string>,
                 setup: Option<string>, events: Events): (s: Session)
    requires plan.DevPlan? <==> events.DevEvents?
    ensures setup.Some? ==> s.outcome == Rejected(setup.value)
    ensures setup.None? && plan.DevPlan? ==> s.outcome == FirstDevVerdict(events.dev)
    ensures setup.None? && plan.BuildPlan? ==> s.outcome == FirstProdVerdict(events.worker)
    ensures setup.None? && plan.DevPlan? && s.outcome == Resolved ==> s.hostname == Some(Hostname(plan.port))
    ensures s.outcome == Resolved ==> s.hostname.Some?
    ensures plan.BuildPlan? && s.outcome == Resolved ==> s.origin == s.hostname
  {
    var start := Begin(hostname, origin);
    if setup.Some? then
      start.(outcome := Rejected(setup.value))
    else if plan.DevPlan? then
      RunDevOutcome(start, plan.port, events.dev);
      RunDevHostname(start, plan.port, events.dev);
      DevResolvesIffListeningFirst(events.dev);
      if FirstDevVerdict(events.dev) == Resolved then
        var i :| 0 <= i < |events.dev| && events.dev[i] == Listening &&
          forall j :: 0 <= j < i ==> !events.dev[j].ServerError?;
        assert events.dev[i] in events.dev;
        RunDev(start, plan.port, events.dev)
      else
        RunDev(start, plan.port, events.dev)
    else
      RunProdOutcome(start, events.worker);
      RunProdAnnounced(start, events.worker);
      RunProd(start, events.worker)
  }

  /** A worker announcing port 4321 resolves startup with that port in the
      hostname and with empty logs. */
  lemma PortAnnouncementScenario(h: Option<string>, o: Option<string>)
    ensures var s := RunProd(Begin(h, o), [Message(WorkerMessage(Some(4321), None, None))]);
      s.outcome == Resolved && s.hostname == Some("http://localhost:4321") && s.logs == [] && s.serverLogs == []
  {
    assert NatToDecimal(4) == "4";
    assert NatToDecimal(43) == "43";
    assert NatToDecimal(432) == "432";
    assert NatToDecimal(4321) == "4321";
    var e := Message(WorkerMessage(Some(4321), None, None));
    assert [e][1..] == [];
    assert RunProd(Begin(h, o), [e]) == ProdStep(Begin(h, o), e);
    assert Hostname(4321) == "http://localhost:4321";
  }

  /** A worker that exits with code 2 before any port or error message
      rejects startup with a reason naming the code. */
  lemma ExitCodeScenario(h: Option<string>, o: Option<string>, lines: seq<string>)
    ensures RunProd(Begin(h, o), [Message(WorkerMessage(None, Some(lines), None)), Exit(2)]).outcome ==
      Rejected("Worker stopped with exit code 2")
  {
    assert IntToDecimal(2) == "2";
    var es := [Message(WorkerMessage(None, Some(lines), None)), Exit(2)];
    var s1 := ProdStep(Begin(h, o), es[0]);
    assert s1.outcome == Pending;
    assert es[1..] == [Exit(2)] && es[1..][1..] == [];
    assert RunProd(Begin(h, o), es) == RunProd(s1, [Exit(2)]);
    assert RunProd(s1, [Exit(2)]) == RunProd(ProdStep(s1, Exit(2)), []);
    assert ExitMessage(2) == "Worker stopped with exit code 2";
  }
}

=== FILE: symbols.dfy ===
/** The context keys of the server runtime: 26 symbols taken from the
    global symbol registry (`Symbol.for`), one per concern that request
    handling stores in its context (logger, HTTP status, caches, config
    chain, ...). */
module Symbols {
  import opened Optional

  /** One constructor per exported key, in declaration order. */
  datatype ContextKey
    = LoggerContext
    | FormDataParser
    | MainModule
    | ServerContext
    | CollectStylesheets
    | HttpContext
    | HttpStatus
    | HttpHeaders
    | RedirectContext
    | ModuleLoader
    | ErrorContext
    | MemoryCacheContext
    | CacheContext
    | FlightCache
    | HtmlCache
    | ConfigRoot
    | ConfigContext
    | ConfigParent
    | Manifest
    | SsrController
    | RouteMatch
    | StylesContext
    | BuildOptions
    | ActionContext
    | RenderStream
    | WorkerThread

  /** The registry string a key is created from: the argument its
      declaration passes to `Symbol.for`. */
  function Name(k: ContextKey): string {
    match k
    case LoggerContext => "LOGGER_CONTEXT"
    case FormDataParser => "FORM_DATA_PARSER"
    case MainModule => "MAIN_MODULE"
    case ServerContext => "SERVER_CONTEXT"
    case CollectStylesheets => "COLLECT_STYLESHEETS"
    case HttpContext => "HTTP_CONTEXT"
    case HttpStatus => "HTTP_STATUS"
    case HttpHeaders => "HTTP_HEADERS"
    case RedirectContext => "REDIRECT_CONTEXT"
    case ModuleLoader => "MODULE_LOADER"
    case ErrorContext => "ERROR_CONTEXT"
    case MemoryCacheContext => "MEMORY_CACHE_CONTEXT"
    case CacheContext => "CACHE_CONTEXT"
    case FlightCache => "FLIGHT_CACHE"
    case HtmlCache => "HTML_CACHE"
    case ConfigRoot => "CONFIG_ROOT"
    case ConfigContext => "CONFIG_CONTEXT"
    case ConfigParent => "CONFIG_PARENT"
    case Manifest => "MANIFEST"
    case SsrController => "SSR_CONTROLLER"
    case RouteMatch => "ROUTE_MATCH"
    case StylesContext => "STYLES_CONTEXT"
    case BuildOptions => "BUILD_OPTIONS"
    case ActionContext => "ACTION_CONTEXT"
    case RenderStream => "RENDER_STREAM"
    case WorkerThread => "WORKER_THREAD"
  }

  /** The identifier a key is exported under: the name its `export const`
      declaration binds. */
  function ExportName(k: ContextKey): string {
    match k
    case LoggerContext => "LOGGER_CONTEXT"
    case FormDataParser => "FORM_DATA_PARSER"
    case MainModule => "MAIN_MODULE"
    case ServerContext => "SERVER_CONTEXT"
    case CollectStylesheets => "COLLECT_STYLESHEETS"
    case HttpContext => "HTTP_CONTEXT"
    case HttpStatus => "HTTP_STATUS"
    case HttpHeaders => "HTTP_HEADERS"
    case RedirectContext => "REDIRECT_CONTEXT"
    case ModuleLoader => "MODULE_LOADER"
    case ErrorContext => "ERROR_CONTEXT"
    case MemoryCacheContext => "MEMORY_CACHE_CONTEXT"
    case CacheContext => "CACHE_CONTEXT"
    case FlightCache => "FLIGHT_CACHE"
    case HtmlCache => "HTML_CACHE"
    case ConfigRoot => "CONFIG_ROOT"
    case ConfigContext => "CONFIG_CONTEXT"
    case ConfigParent => "CONFIG_PARENT"
    case Manifest => "MANIFEST"
    case SsrController => "SSR_CONTROLLER"
    case RouteMatch => "ROUTE_MATCH"
    case StylesContext => "STYLES_CONTEXT"
    case BuildOptions => "BUILD_OPTIONS"
    case ActionContext => "ACTION_CONTEXT"
    case RenderStream => "RENDER_STREAM"
    case WorkerThread => "WORKER_THREAD"
  }

  /** Every key is exported under the very string it is registered with, so
      a module that knows only the export's name can derive the symbol. */
  lemma ExportNameIsRegistryString(k: ContextKey)
    ensures ExportName(k) == Name(k)
  {
  }

  /** Which key, if any, a registry string names: a switch on the first
      letter, then the names that start with it. */
  function FromName(s: string): Option<ContextKey> {
    if |s| == 0 then None
    else
      match s[0]
      case 'A' =>
        if s == Name(ActionContext) then Some(ActionContext)
        else None
      case 'B' =>
        if s == Name(BuildOptions) then Some(BuildOptions)
        else None
      case 'C' =>
        if s == Name(CollectStylesheets) then Some(CollectStylesheets)
        else if s == Name(CacheContext) then Some(CacheContext)
        else if s == Name(ConfigRoot) then Some(ConfigRoot)
        else if s == Name(ConfigContext) then Some(ConfigContext)
        else if s == Name(ConfigParent) then Some(ConfigParent)
        else None
      case 'E' =>
        if s == Name(ErrorContext) then Some(ErrorContext)
        else None
      case 'F' =>
        if s == Name(FormDataParser) then Some(FormDataParser)
        else if s == Name(FlightCache) then Some(FlightCache)
        else None
      case 'H' =>
        if s == Name(HttpContext) then Some(HttpContext)
        else if s == Name(HttpStatus) then Some(HttpStatus)
        else if s == Name(HttpHeaders) then Some(HttpHeaders)
        else if s == Name(HtmlCache) then Some(HtmlCache)
        else None
      case 'L' =>
        if s == Name(LoggerContext) then Some(LoggerContext)
        else None
      case 'M' =>
        if s == Name(MainModule) then Some(MainModule)
        else if s == Name(ModuleLoader) then Some(ModuleLoader)
        else if s == Name(MemoryCacheContext) then Some(MemoryCacheContext)
        else if s == Name(Manifest) then Some(Manifest)
        else None
      case 'R' =>
        if s == Name(RedirectContext) then Some(RedirectContext)
        else if s == Name(RouteMatch) then Some(RouteMatch)
        else if s == Name(RenderStream) then Some(RenderStream)
        else None
      case 'S' =>
        if s == Name(ServerContext) then Some(ServerContext)
        else if s == Name(SsrController) then Some(SsrController)
        else if s == Name(StylesContext) then Some(StylesContext)
        else None
      case 'W' =>
        if s == Name(WorkerThread) then Some(WorkerThread)
        else None
      case _ => None
  }

  /** Every key, in declaration order. */
  const AllKeys: seq<ContextKey> := [
      LoggerContext,
      FormDataParser,
      MainModule,
      ServerContext,
      CollectStylesheets,
      HttpContext,
      HttpStatus,
      HttpHeaders,
      RedirectContext,
      ModuleLoader,
      ErrorContext,
      MemoryCacheContext,
      CacheContext,
      FlightCache,
      HtmlCache,
      ConfigRoot,
      ConfigContext,
      ConfigParent,
      Manifest,
      SsrController,
      RouteMatch,
      StylesContext,
      BuildOptions,
      ActionContext,
      RenderStream,
      WorkerThread
    ]

  /** A key's position in `AllKeys`. */
  function Index(k: ContextKey): (i: nat)
    ensures i < |AllKeys| && AllKeys[i] == k
  {
    match k
    case LoggerContext => 0
    case FormDataParser => 1
    case MainModule => 2
    case ServerContext => 3
    case CollectStylesheets => 4
    case HttpContext => 5
    case HttpStatus => 6
    case HttpHeaders => 7
    case RedirectContext => 8
    case ModuleLoader => 9
    case ErrorContext => 10
    case MemoryCacheContext => 11
    case CacheContext => 12
    case FlightCache => 13
    case HtmlCache => 14
    case ConfigRoot => 15
    case ConfigContext => 16
    case ConfigParent => 17
    case Manifest => 18
    case SsrController => 19
    case RouteMatch => 20
    case StylesContext => 21
    case BuildOptions => 22
    case ActionContext => 23
    case RenderStream => 24
    case WorkerThread => 25
  }

  /** `FromName` reads back every key's name. */
  lemma NameRoundTrip(k: ContextKey)
    ensures FromName(Name(k)) == Some(k)
  {
    if Index(k) < 6 {
      ContextKeysRoundTrip(k);
    } else if Index(k) < 11 {
      ResponseKeysRoundTrip(k);
    } else if Index(k) < 15 {
      CacheKeysRoundTrip(k);
    } else if Index(k) < 18 {
      ConfigKeysRoundTrip(k);
    } else if Index(k) < 22 {
      RoutingKeysRoundTrip(k);
    } else {
      RenderKeysRoundTrip(k);
    }
  }

  /** Declarations 1-6 of symbols.mjs: logger, form data, main module, server, stylesheet and HTTP contexts. */
  lemma ContextKeysRoundTrip(k: ContextKey)
    requires Index(k) < 6
    ensures FromName(Name(k)) == Some(k)
  {
    match k
    case LoggerContext =>
    case FormDataParser =>
    case MainModule =>
    case ServerContext =>
    case CollectStylesheets =>
    case HttpContext =>
  }

  /** Declarations 7-11 of symbols.mjs: HTTP status and headers, redirect, module loader, error context. */
  lemma ResponseKeysRoundTrip(k: ContextKey)
    requires 6 <= Index(k) < 11
    ensures FromName(Name(k)) == Some(k)
  {
    match k
    case HttpStatus =>
    case HttpHeaders =>
    case RedirectContext =>
    case ModuleLoader =>
    case ErrorContext =>
  }

  /** Declarations 12-15 of symbols.mjs: the four cache keys. */
  lemma CacheKeysRoundTrip(k: ContextKey)
    requires 11 <= Index(k) < 15
    ensures FromName(Name(k)) == Some(k)
  {
    match k
    case MemoryCacheContext =>
    case CacheContext =>
    case FlightCache =>
    case HtmlCache =>
  }

  /** Declarations 16-18 of symbols.mjs: the three configuration-chain keys. */
  lemma ConfigKeysRoundTrip(k: ContextKey)
    requires 15 <= Index(k) < 18
    ensures FromName(Name(k)) == Some(k)
  {
    match k
    case ConfigRoot =>
    case ConfigContext =>
    case ConfigParent =>
  }

  /** Declarations 19-22 of symbols.mjs: manifest, SSR controller, route match, styles context. */
  lemma RoutingKeysRoundTrip(k: ContextKey)
    requires 18 <= Index(k) < 22
    ensures FromName(Name(k)) == Some(k)
  {
    match k
    case Manifest =>
    case SsrController =>
    case RouteMatch =>
    case StylesContext =>
  }

  /** Declarations 23-26 of symbols.mjs: build options, action context, render stream, worker thread. */
  lemma RenderKeysRoundTrip(k: ContextKey)
    requires 22 <= Index(k) < 26
    ensures FromName(Name(k)) == Some(k)
  {
    match k
    case BuildOptions =>
    case ActionContext =>
    case RenderStream =>
    case WorkerThread =>
  }

  /** `FromName` only accepts a key's name. */
  lemma FromNameSound(s: string)
    ensures FromName(s).Some? ==> Name(FromName(s).value) == s
  {
  }

  /** No two keys share a registry string. */
  lemma NameInjective(a: ContextKey, b: ContextKey)
    ensures Name(a) == Name(b) ==> a == b
  {
    NameRoundTrip(a);
    NameRoundTrip(b);
  }

  /** `Index` is the inverse of the table: position `i` belongs to exactly one key. */
  lemma IndexInverse(i: nat)
    requires i < |AllKeys|
    ensures forall k :: Index(k) == i <==> k == AllKeys[i]
  {
    AllKeysComplete();
  }

  /** The table lists 26 keys, each exactly once. */
  lemma AllKeysComplete()
    ensures |AllKeys| == 26
    ensures forall k: ContextKey :: k in AllKeys
    ensures forall i, j :: 0 <= i < j < |AllKeys| ==> AllKeys[i] != AllKeys[j]
  {
    forall k: ContextKey
      ensures k in AllKeys
    {
      var i := Index(k);
    }
  }

  /** A symbol: its identity, and the description it was created with. */
  datatype Symbol = Symbol(id: nat, description: string)

  /** The process-wide symbol registry: registry string to symbol, and the
      identity the next newly created symbol receives. */
  datatype Registry = Registry(entries: map<string, Symbol>, nextId: nat)

  /** Every registered symbol carries its registry string as description
      and an identity handed out before. */
  predicate Valid(r: Registry) {
    forall s :: s in r.entries ==> r.entries[s].description == s && r.entries[s].id < r.nextId
  }

  /** `r'` keeps every registration of `r`. */
  predicate Extends(r: Registry, r': Registry) {
    forall s :: s in r.entries ==> s in r'.entries && r'.entries[s] == r.entries[s]
  }

  /** `Symbol.for(s)`: the symbol registered under `s`, or a new symbol,
      distinct from every registered one, that is registered from now on. */
  function SymbolFor(r: Registry, s: string): (res: (Registry, Symbol))
    requires Valid(r)
    ensures Valid(res.0) && Extends(r, res.0)
    ensures s in res.0.entries && res.0.entries[s] == res.1
    ensures res.1.description == s
    ensures s in r.entries ==> res == (r, r.entries[s])
    ensures s !in r.entries ==> forall t :: t in r.entries ==> r.entries[t] != res.1
  {
    if s in r.entries then (r, r.entries[s])
    else
      var sym := Symbol(r.nextId, s);
      (Registry(r.entries[s := sym], r.nextId + 1), sym)
  }

  /** Deriving a key a second time from the same string yields the same
      symbol and registers nothing new. */
  lemma SymbolForTwice(r: Registry, s: string)
    requires Valid(r)
    ensures SymbolFor(SymbolFor(r, s).0, s) == (SymbolFor(r, s).0, SymbolFor(r, s).1)
  {
  }

  /** Distinct registry strings give distinct symbols. */
  lemma SymbolForSeparates(r: Registry, s: string, t: string)
    requires Valid(r)
    requires s != t
    ensures SymbolFor(SymbolFor(r, s).0, t).1 != SymbolFor(r, s).1
  {
  }

  /** Evaluating the declarations `Symbol.for(Name(k))` of the keys from
      position `i` of the table on, in order, against the registry `r`. */
  function DefineFrom(r: Registry, i: nat): (res: (Registry, map<ContextKey, Symbol>))
    requires Valid(r)
    requires i <= |AllKeys|
    ensures Valid(res.0) && Extends(r, res.0)
    ensures forall k :: k in res.1 <==> i <= Index(k)
    ensures forall k :: k in res.1 ==>
      res.1[k].description == Name(k) && Name(k) in res.0.entries && res.0.entries[Name(k)] == res.1[k]
    decreases |AllKeys| - i
  {
    if i == |AllKeys| then (r, map[])
    else
      var k := AllKeys[i];
      IndexInverse(i);
      var (r1, sym) := SymbolFor(r, Name(k));
      var (r2, m) := DefineFrom(r1, i + 1);
      (r2, m[k := sym])
  }

  /** The module's exports, evaluated against whatever the registry already
      holds (other modules may have registered the same strings first). */
  function Exports(r: Registry): (res: (Registry, map<ContextKey, Symbol>))
    requires Valid(r)
    ensures Valid(res.0) && Extends(r, res.0)
    ensures forall k: ContextKey :: k in res.1 && res.1[k].description == Name(k)
    ensures forall k: ContextKey :: k in res.1 ==> Name(k) in res.0.entries && res.0.entries[Name(k)] == res.1[k]
  {
    DefineFrom(r, 0)
  }

  /** The 26 exported keys are pairwise distinct. */
  lemma ExportedKeysDistinct(r: Registry, a: ContextKey, b: ContextKey)
    requires Valid(r)
    requires a != b
    ensures var e := Exports(r).1; a in e && b in e && e[a] != e[b]
  {
    NameInjective(a, b);
  }

  /** Deriving a key again from its name, in any later module, yields the
      exported symbol. */
  lemma RederivationStable(r: Registry, k: ContextKey)
    requires Valid(r)
    ensures var (reg, e) := Exports(r);
      (k in e && forall later :: Valid(later) && Extends(reg, later) ==> SymbolFor(later, Name(k)).1 == e[k])
  {
  }

  /** The four cache keys are mutually distinct. */
  lemma CacheKeysDistinct(r: Registry)
    requires Valid(r)
    ensures var e := Exports(r).1;
      MemoryCacheContext in e && CacheContext in e && FlightCache in e && HtmlCache in e &&
      e[MemoryCacheContext] != e[CacheContext] && e[MemoryCacheContext] != e[FlightCache] &&
      e[MemoryCacheContext] != e[HtmlCache] && e[CacheContext] != e[FlightCache] &&
      e[CacheContext] != e[HtmlCache] && e[FlightCache] != e[HtmlCache]
  {
    ExportedKeysDistinct(r, MemoryCacheContext, CacheContext);
    ExportedKeysDistinct(r, MemoryCacheContext, FlightCache);
    ExportedKeysDistinct(r, MemoryCacheContext, HtmlCache);
    ExportedKeysDistinct(r, CacheContext, FlightCache);
    ExportedKeysDistinct(r, CacheContext, HtmlCache);
    ExportedKeysDistinct(r, FlightCache, HtmlCache);
  }

  /** The three configuration-chain keys are mutually distinct. */
  lemma ConfigKeysDistinct(r: Registry)
    requires Valid(r)
    ensures var e := Exports(r).1;
      ConfigRoot in e && ConfigContext in e && ConfigParent in e &&
      e[ConfigRoot] != e[ConfigContext] && e[ConfigRoot] != e[ConfigParent] && e[ConfigContext] != e[ConfigParent]
  {
    ExportedKeysDistinct(r, ConfigRoot, ConfigContext);
    ExportedKeysDistinct(r, ConfigRoot, ConfigParent);
    ExportedKeysDistinct(r, ConfigContext, ConfigParent);
  }
}

=== FILE: text.dfy ===
/** Character-level helpers the harness relies on implicitly: the decimal
    rendering JavaScript uses in template literals, `String.prototype.includes`
    and `Array.prototype.join`. */
module Text {

  predicate IsDigitChar(c: char) {
    '0' <= c <= '9'
  }

  predicate AllDigits(s: string) {
    forall i :: 0 <= i < |s| ==> IsDigitChar(s[i])
  }

  function DigitChar(d: nat): (c: char)
    requires d < 10
    ensures IsDigitChar(c)
  {
    ('0' as int + d) as char
  }

  function DigitValue(c: char): (d: nat)
    requires IsDigitChar(c)
    ensures d < 10
  {
    c as int - '0' as int
  }

  /** The number a string of decimal digits denotes (most significant first). */
  function DigitsValue(s: string): nat
    requires AllDigits(s)
  {
    if |s| == 0 then 0 else 10 * DigitsValue(s[..|s| - 1]) + DigitValue(s[|s| - 1])
  }

  /** `${n}` for a non-negative integer: no sign, no leading zero. */
  function NatToDecimal(n: nat): (s: string)
    ensures |s| > 0
    ensures AllDigits(s)
    ensures |s| > 1 ==> s[0] != '0'
    decreases n
  {
    if n < 10 then [DigitChar(n)] else NatToDecimal(n / 10) + [DigitChar(n % 10)]
  }

  /** Reading the rendered digits back gives the number. */
  lemma {:induction false} DecimalRoundTrip(n: nat)
    ensures DigitsValue(NatToDecimal(n)) == n
  {
    if n >= 10 {
      var s := NatToDecimal(n / 10);
      var t := s + [DigitChar(n % 10)];
      assert t[..|t| - 1] == s;
      DecimalRoundTrip(n / 10);
    }
  }

  lemma NatToDecimalInjective(a: nat, b: nat)
    ensures NatToDecimal(a) == NatToDecimal(b) ==> a == b
  {
    DecimalRoundTrip(a);
    DecimalRoundTrip(b);
  }

  /** `${i}` for any integer: a leading '-' exactly for negative numbers. */
  function IntToDecimal(i: int): (s: string)
    ensures |s| > 0
    ensures s[0] == '-' <==> i < 0
    ensures i >= 0 ==> AllDigits(s)
    ensures i < 0 ==> AllDigits(s[1..])
  {
    if i < 0 then "-" + NatToDecimal(-i) else NatToDecimal(i)
  }

  lemma IntToDecimalInjective(a: int, b: int)
    ensures IntToDecimal(a) == IntToDecimal(b) ==> a == b
  {
    if IntToDecimal(a) == IntToDecimal(b) {
      if a < 0 {
        assert IntToDecimal(a)[1..] == NatToDecimal(-a);
        assert IntToDecimal(b)[1..] == NatToDecimal(-b);
        NatToDecimalInjective(-a, -b);
      } else {
        NatToDecimalInjective(a, b);
      }
    }
  }

  /** `sub` occurs in `s` starting at index `i`. */
  predicate OccursAt(s: string, sub: string, i: int) {
    0 <= i && i + |sub| <= |s| && s[i..i + |sub|] == sub
  }

  /** `s.includes(sub)`. */
  predicate Contains(s: string, sub: string) {
    exists i :: 0 <= i <= |s| && OccursAt(s, sub, i)
  }

  /** A string contains itself. */
  lemma ContainsSelf(s: string)
    ensures Contains(s, s)
  {
    assert s[0..|s|] == s;
    assert OccursAt(s, s, 0);
  }

  /** Appending text on the right keeps every occurrence. */
  lemma ContainsExtendRight(s: string, t: string, sub: string)
    requires Contains(s, sub)
    ensures Contains(s + t, sub)
  {
    var i :| 0 <= i <= |s| && OccursAt(s, sub, i);
    assert (s + t)[i..i + |sub|] == s[i..i + |sub|];
    assert OccursAt(s + t, sub, i);
  }

  /** Prepending text on the left keeps every occurrence, shifted. */
  lemma ContainsExtendLeft(t: string, s: string, sub: string)
    requires Contains(s, sub)
    ensures Contains(t + s, sub)
  {
    var i :| 0 <= i <= |s| && OccursAt(s, sub, i);
    assert (t + s)[|t| + i..|t| + i + |sub|] == s[i..i + |sub|];
    assert OccursAt(t + s, sub, |t| + i);
  }

  /** `args.join(sep)`. */
  function Join(args: seq<string>, sep: string): (s: string)
    ensures |args| == 1 ==> s == args[0]
    ensures |args| == 0 ==> s == ""
  {
    if |args| == 0 then ""
    else if |args| == 1 then args[0]
    else args[0] + sep + Join(args[1..], sep)
  }

  /** Index of the first occurrence of `c` in `s`, or `|s|` when there is none. */
  function IndexOf(s: string, c: char): (k: nat)
    ensures k <= |s|
    ensures k < |s| ==> s[k] == c
    ensures forall i :: 0 <= i < k ==> s[i] != c
  {
    if |s| == 0 then 0 else if s[0] == c then 0 else 1 + IndexOf(s[1..], c)
  }

  lemma {:induction false} IndexOfPastPrefix(a: string, t: string, c: char)
    requires c !in a
    ensures IndexOf(a + t, c) == |a| + IndexOf(t, c)
  {
    if |a| > 0 {
      assert (a + t)[0] == a[0] && a[0] != c;
      assert (a + t)[1..] == a[1..] + t;
      IndexOfPastPrefix(a[1..], t, c);
    } else {
      assert a + t == t;
    }
  }

  /** The first separator of `a + [sep] + x` sits right after `a`. */
  lemma FirstSeparator(a: string, x: string, sep: char)
    requires sep !in a
    ensures IndexOf(a + ([sep] + x), sep) == |a|
  {
    IndexOfPastPrefix(a, [sep] + x, sep);
  }

  /** A separator that occurs in neither left part splits both sides the same way. */
  lemma SeparatorSplit(a: string, x: string, b: string, y: string, sep: char)
    requires sep !in a && sep !in b
    requires a + ([sep] + x) == b + ([sep] + y)
    ensures a == b && x == y
  {
    var l := a + ([sep] + x);
    FirstSeparator(a, x, sep);
    FirstSeparator(b, y, sep);
    assert |a| == |b|;
    assert a == l[..|a|];
    assert [sep] + x == l[|a|..];
    assert x == ([sep] + x)[1..];
  }

  lemma DigitsHaveNoDash(s: string)
    requires AllDigits(s)
    ensures '-' !in s
  {
  }
}
